=== FILE: README.md ===
# JwtUtils — a Dafny model

This project models `utils.JwtUtils`, the token utility of the microservice-utils
library. The class issues and checks signed, time-bounded tokens under one of two
secrets: a per-service *access* secret and a *global* secret shared between
services. The class itself does not sign anything or decode JSON. A JWT library does
that work. The class decides:

- which secret a selector picks;
- how the expiry parameter becomes an expiration instant, in hours;
- how the expiry predicates read the verified expiration;
- which library failures `validateToken` turns into the status codes 200, 401 and 423;
- how a leading `"Bearer "` is removed;
- when the service-to-service gate consults the library at all.

## Layout

- `java_lang.dfy` (module `JavaLang`): Java `null` as `Option`, `int`/`long` as
  subset types, and `ToLong`, the two's-complement wrap of `long` arithmetic.
- `jwt_library.dfy` (module `JwtLibrary`): the library as two oracles. A `Parser` maps
  a possibly-null token string and a secret to `Parsed(claims)` or
  `Rejected(failure)`. A `Signer` maps a payload and a secret to a compact token.
  `SoundLibrary` lists the library guarantees that some lemmas assume:
  - a null or empty token is refused as an illegal argument;
  - signed tokens are non-empty and contain no space;
  - a token verifies under its own secret and keeps the values of the caller's (text, number and boolean) claims, or it fails as expired;
  - when the caller supplied an "nbf" (not-before) claim, verification may also fail as premature, or with another library failure;
  - a token fails with a signature error under any other secret.
- `jwt_utils.dfy` (module `JwtUtils`): one pure function per method of the class.
  A method that can throw returns `Outcome<T> = Returns(value) | Throws(failure)`.
  The clock is a parameter (`now`; in `generateToken`, one parameter for each of
  its two clock reads).
- `jwt_utils_properties.dfy` (module `JwtUtilsProperties`): lemmas that relate
  several calls.

## Model

| member | source | states |
|---|---|---|
| JavaLang.ToLong | src/main/java/utils/JwtUtils.java:64 | Java `long` arithmetic: the result is congruent to the exact value modulo 2^64 and equals it when it is in range; one step above the range wraps to the bottom |
| JwtUtils.HourSpan | src/main/java/utils/JwtUtils.java:64 | `1000L*60*60*exp` never wraps for any `int` exp: it is exactly exp hours in milliseconds, zero iff exp is zero, positive iff exp is positive |
| JwtUtils.ExpirationAt | src/main/java/utils/JwtUtils.java:64 | for every clock the expiration is congruent to the clock plus exp hours modulo 2^64, as Java's `long` sum is; for a clock that leaves room for any `int` number of hours it is exactly that, and not before the clock iff exp >= 0 |
| JwtUtils.IssuedPayload | src/main/java/utils/JwtUtils.java:62-64 | the builder gets the caller's claims unchanged and issued-at from the first clock read; the expiration is congruent modulo 2^64 to the second clock read plus exp hours, and exactly exp hours after it for a clock that leaves room |
| JwtUtils.SecretFor | src/main/java/utils/JwtUtils.java:48 | the key-selection rule, which signing uses at line 65 too: always one of the two secrets; the global secret for GLOBAL_KEY; the access secret for ACCESS_KEY and for a null selector |
| JwtUtils.GenerateToken | src/main/java/utils/JwtUtils.java:61-67 | the token is signed with the global secret when the selector is GLOBAL_KEY and with the access secret otherwise, including a null selector |
| JwtUtils.ExtractAllClaims | src/main/java/utils/JwtUtils.java:46-51 | returns claims iff the library verifies the token under the selected secret; otherwise the library's failure propagates unchanged |
| JwtUtils.ExtractClaim | src/main/java/utils/JwtUtils.java:32-35 | the resolver is applied only to verified claims; failures propagate |
| JwtUtils.ExtractExpiration | src/main/java/utils/JwtUtils.java:37-39 | the verified expiration, which may be null; failures propagate |
| JwtUtils.ExtractExtraClaims | src/main/java/utils/JwtUtils.java:41-44 | both parses run, so a rejection propagates as a throw; otherwise the value stored under the key in the verified claims, and null when the key is absent or is itself null |
| JwtUtils.IsTokenExpired | src/main/java/utils/JwtUtils.java:57-59 | returns a boolean iff the token verifies and carries an expiration; true iff that expiration is strictly before now; library failures propagate; a missing expiration throws a null-pointer failure |
| JwtUtils.IsTokenValid | src/main/java/utils/JwtUtils.java:53-55 | exactly the negation of isTokenExpired with the same failures; true iff the token verifies with an expiration at or after now |
| JwtUtils.ExcludeToken | src/main/java/utils/JwtUtils.java:84-88 | null stays null; a token starting with the case-sensitive "Bearer " comes back as the rest after that prefix; any other token comes back unchanged |
| JwtUtils.StatusOf | src/main/java/utils/JwtUtils.java:70-77 | a completed check gives 200 whatever its verdict; a signature failure gives 401; an expiry failure gives 423; every other failure propagates unchanged |
| JwtUtils.ValidateToken | src/main/java/utils/JwtUtils.java:69-78 | after prefix removal: 200 iff the library verifies the token and it has an expiration; 401 iff the library reports a bad signature; 423 iff it reports expiry; no other code; any other library failure (malformed, premature or null token) propagates unchanged; a verified token without an expiration throws a null-pointer failure |
| JwtUtils.IsMicroservice | src/main/java/utils/JwtUtils.java:90-95 | false for a null or empty token; otherwise exactly isTokenValid on the raw token with the global selector |
| JwtUtilsProperties.ExcludeTokenInvertsPrefix | src/main/java/utils/JwtUtils.java:84-88 | removing the prefix undoes adding it, for every token, so exactly one prefix is removed |
| JwtUtilsProperties.ExcludeTokenEdgeCases | src/main/java/utils/JwtUtils.java:84-88 | null passes through; "bearer x" and "Bearer" are unchanged; "Bearer Bearer x" becomes "Bearer x" |
| JwtUtilsProperties.CompactTokenIsNotPrefixed | src/main/java/utils/JwtUtils.java:84-88 | a compact token, which has no space, is never changed by prefix removal |
| JwtUtilsProperties.SecretChoiceIff | src/main/java/utils/JwtUtils.java:48 | with distinct secrets, two selectors pick the same secret iff both or neither are GLOBAL_KEY; null picks the access secret |
| JwtUtilsProperties.SingleReadingOrder | src/main/java/utils/JwtUtils.java:63-64 | with one clock reading, expiration >= issued-at iff exp >= 0; zero hours gives expiration == issued-at |
| JwtUtilsProperties.TwoReadingsOrder | src/main/java/utils/JwtUtils.java:63-64 | with a later second clock read, the expiration is at least exp hours (of either sign) after issued-at |
| JwtUtilsProperties.ExpirationWrapsAtTopOfRange | src/main/java/utils/JwtUtils.java:64 | the sum can wrap: a clock at Long.MAX_VALUE plus one hour gives an expiration before issued-at |
| JwtUtilsProperties.ValidateDiscardsVerdict | src/main/java/utils/JwtUtils.java:71-72 | there is a library verdict under which isTokenValid completes with false and validateToken still returns 200 |
| JwtUtilsProperties.MissingExpirationEscapes | src/main/java/utils/JwtUtils.java:58 | a verified token without an expiration makes isTokenValid throw, and validateToken does not catch that |
| JwtUtilsProperties.ValidateIgnoresOnePrefix | src/main/java/utils/JwtUtils.java:69-71 | the status for "Bearer " + t is the status of checking t itself; it equals validateToken(t) when t has no prefix of its own |
| JwtUtilsProperties.ValidateNullTokenThrows | src/main/java/utils/JwtUtils.java:69-78 | a null token, or a bare "Bearer " that strips to the empty string, is passed to the library, whose illegal-argument failure leaves validateToken |
| JwtUtilsProperties.ExtraClaimsSingleParse | src/main/java/utils/JwtUtils.java:41-44 | the discarded first parse does not change the result: it equals one extraction followed by a lookup |
| JwtUtilsProperties.MicroserviceRefusesEmpty | src/main/java/utils/JwtUtils.java:91-93 | null and empty tokens give false for every library and every pair of secrets |
| JwtUtilsProperties.MicroserviceUsesGlobalRawToken | src/main/java/utils/JwtUtils.java:94 | the gate's result does not depend on the access secret, and a prefixed token is checked with its prefix |
| JwtUtilsProperties.IssuedTokenVerifiesIffSameSecret | src/main/java/utils/JwtUtils.java:48 | with a sound library and distinct secrets, extracting claims from a fresh token fails with a signature error iff the verifying selector picks the other secret (the same selection rule as line 65) |
| JwtUtilsProperties.IssuedClaimsRoundTrip | src/main/java/utils/JwtUtils.java:41-44 | with a sound library, every caller claim other than iat/exp is read back unchanged with the signing selector, unless the token reports expiry or a caller "nbf" claim makes the library refuse it (issued at lines 61-67) |
| JwtUtilsProperties.ValidateIssuedToken | src/main/java/utils/JwtUtils.java:69-78 | with a sound library and distinct secrets, a fresh token validates to 401 with the other selector; with the signing selector it validates to 200 or 423, or, only when the caller supplied "nbf", the library's premature or malformed failure escapes |
| JwtUtilsProperties.MicroserviceRejectsAccessToken | src/main/java/utils/JwtUtils.java:90-95 | with a sound library and distinct secrets, an access-signed token makes the gate throw a signature failure instead of returning false |

## Left out

- Cryptography and wire format. HMAC-SHA256 (section 3.2 of RFC 7518), the JWS compact serialisation (section 7.1 of RFC 7515), base64url and JSON claim encoding all happen inside the JWT library. The library is an oracle here. Its round-trip, wrong-key and shape guarantees are assumed as `SoundLibrary`, not derived.
- Second-granularity of `exp`/`iat` on the wire. The library keeps whole seconds. The oracle reports the expiration it likes, and `RoundTrips` only requires that one is present.
- Library timing rules. When the library throws `ExpiredJwtException` or `PrematureJwtException`, and when it returns claims with a past expiration, depends on its clock and skew. The oracle may do either. The oracle has no clock, so its verdict on one token is the same on every call. As a result the two parses in `extractExtraClaims` (lines 42-43) always agree in the model. In the program the second parse can throw `ExpiredJwtException` after the first one succeeded. If expiry is monotone in time, the result still equals one extraction at the later instant.
- Key construction. `getSignKey` converts with the platform default charset and then runs `Keys.hmacShaKeyFor`, which rejects short keys (lines 80-83). Secrets are used as strings, and distinct secrets are taken to give distinct key bytes. A weak-key failure, or a null secret, is not modelled.
- Claim value types. Claim values are a small tagged type, and how the library types registered claims is not modelled. A caller's `Date` claim value comes back in its JSON form (a number or a string), not as a `Date`. So the claim kinds modelled are text, integral numbers and booleans. `Number` stands for the numeric value only: the boxed Java type can change on the way back (a `Long` may come back as an `Integer`, or as a `Double`, depending on the JSON binding). Fractional claim values and null claim values are not modelled; the builder drops a null value, so reading it back gives null. `Claims.expiration` is the library's typed view of "exp".
- A null `extraClaims` map passed to `generateToken`. What the library builder does with it is not modelled.
- The clock. `System.currentTimeMillis()` and `new Date()` are parameters: `now`, and `issueClock`/`expiryClock` for the two reads in `generateToken`.
- The `expiration` constructor field (lines 24, 29). No method reads it.
- A `"Bearer "`-prefixed token handed straight to `extractAllClaims`. The library fails to parse it, but that is library behaviour, so the oracle decides.

=== FILE: java_lang.dfy ===
/**
 The pieces of Java semantics the token utility relies on: references that
 may be null, the 32- and 64-bit integer types, and two's-complement
 wrap-around of `long` arithmetic.
 */
module JavaLang {

  /** A Java reference: either `null` or a value. */
  datatype Option<+T> = None | Some(value: T)

  const MaxInt: int := 0x7FFF_FFFF
  const MinInt: int := -0x8000_0000
  const MaxLong: int := 0x7FFF_FFFF_FFFF_FFFF
  const MinLong: int := -0x8000_0000_0000_0000

  /** Number of distinct `long` values. */
  const LongModulus: int := 0x1_0000_0000_0000_0000

  /** Java `int`. */
  type int32 = x: int | -0x8000_0000 <= x <= 0x7FFF_FFFF

  /** Java `long`. */
  type int64 = x: int | -0x8000_0000_0000_0000 <= x <= 0x7FFF_FFFF_FFFF_FFFF

  /** The `long` a Java arithmetic expression yields for the exact value `x`:
      the unique `long` congruent to `x` modulo 2^64. */
  function ToLong(x: int): (r: int64)
    ensures (r - x) % LongModulus == 0
    ensures MinLong <= x <= MaxLong ==> r == x
    ensures x > MaxLong && x - LongModulus <= MaxLong ==> r == x - LongModulus
  {
    (x - MinLong) % LongModulus + MinLong
  }

  /** Java `String.startsWith`. */
  predicate StartsWith(s: string, prefix: string)
  {
    prefix <= s
  }
}

=== FILE: jwt_library.dfy ===
/**
 The JWT library the utility delegates to, as an uninterpreted oracle.

 Signing with HMAC-SHA256 (section 3.2 of RFC 7518), the JWS compact
 serialisation (section 7.1 of RFC 7515), base64url and the JSON claim
 encoding all happen inside the library. Here the library is a pair of
 function-valued parameters: a `Signer` that turns a payload and a secret
 into a compact token, and a `Parser` that verifies a (possibly null) token
 string against a secret. `SoundLibrary` collects the guarantees of the
 library the properties rely on; nothing in this model derives them.
 */
module JwtLibrary {
  import opened JavaLang

  /** A claim value of a kind that survives the JSON encoding unchanged.
      The source stores arbitrary objects; the tags only distinguish values,
      no serialisation behaviour is modelled. */
  datatype Value = Text(text: string) | Number(number: int) | Flag(flag: bool)

  /** Verified claims: every entry of the payload (registered claims such as
      "exp" included), and the library's typed view of the expiration in
      milliseconds, which is null when the token carries no expiration. */
  datatype Claims = Claims(entries: map<string, Value>, expiration: Option<int>)

  /** What the token builder is given: caller claims plus the issued-at and
      expiration instants in milliseconds. */
  datatype Payload = Payload(claims: map<string, Value>, issuedAt: int64, expiration: int64)

  /** The kinds of failure that can leave the utility's methods. */
  datatype Failure =
    | SignatureInvalid   // the signature does not verify under the key
    | ExpiredJwt         // signed correctly but past its expiration
    | PrematureJwt       // signed correctly but before its not-before instant
    | MalformedJwt       // any other library failure: not a compact JWS, unsupported, unreadable claim
    | IllegalArgument    // null or empty token string
    | NullPointer        // dereference of a null expiration

  /** Outcome of one verification by the library. */
  datatype ParseResult = Parsed(claims: Claims) | Rejected(failure: Failure)

  /** Verifies a token string (null allowed) against a secret. */
  type Parser = (Option<string>, string) -> ParseResult

  /** Builds and signs a compact token for a payload under a secret. */
  type Signer = (Payload, string) -> string

  /** Claim names the builder sets itself, overriding caller claims. */
  predicate Registered(name: string)
  {
    name == "iat" || name == "exp"
  }

  /** A compact token is non-empty and contains no space: it is three
      base64url segments joined by dots. */
  ghost predicate CompactShape(token: string)
  {
    |token| > 0 && forall i :: 0 <= i < |token| ==> token[i] != ' '
  }

  /** Verifying a token under the secret it was signed with either yields
      claims that keep every caller claim and carry an expiration, or fails
      because the token has expired. A caller-supplied "nbf" (not-before)
      claim is checked by the library too: it may make verification fail as
      premature, or with another library failure when its value cannot be
      read as an instant. */
  ghost predicate RoundTrips(r: ParseResult, p: Payload)
  {
    || r == Rejected(ExpiredJwt)
    || ("nbf" in p.claims && (r == Rejected(PrematureJwt) || r == Rejected(MalformedJwt)))
    || (&& r.Parsed?
        && r.claims.expiration.Some?
        && forall name :: name in p.claims && !Registered(name) ==>
             name in r.claims.entries && r.claims.entries[name] == p.claims[name])
  }

  /** The library guarantees the model assumes: null and empty tokens are
      refused as illegal arguments, signed tokens have compact shape, verify under their
      own secret and fail with a signature error under any other secret.
      Distinct secrets are taken to give distinct key bytes. */
  ghost predicate SoundLibrary(parse: Parser, sign: Signer)
  {
    && (forall secret :: parse(None, secret) == Rejected(IllegalArgument))
    && (forall secret :: parse(Some(""), secret) == Rejected(IllegalArgument))
    && (forall p, secret :: CompactShape(sign(p, secret)))
    && (forall p, secret :: RoundTrips(parse(Some(sign(p, secret)), secret), p))
    && (forall p, secret, other :: secret != other ==>
          parse(Some(sign(p, secret)), other) == Rejected(SignatureInvalid))
  }
}

=== FILE: jwt_utils.dfy ===
/**
 The token utility: key selection, token issue, claim extraction, the
 expiry predicates, the status-code wrapper, the "Bearer " normalisation and
 the service-to-service gate. Each Java method becomes a pure function over
 a configuration, the library oracles and, where the source reads the clock,
 an explicit `now`. A Java method that may throw returns an `Outcome`.
 */
module JwtUtils {
  import opened JavaLang
  import opened JwtLibrary

  /** Which of the two secrets signs or verifies a token. */
  datatype SignatureType = AccessKey | GlobalKey

  /** The two secrets fixed at construction. */
  datatype Config = Config(globalKey: string, accessKey: string)

  /** A Java call either returns a value or throws. */
  datatype Outcome<+T> = Returns(value: T) | Throws(failure: Failure)

  const BearerPrefix: string := "Bearer "

  /** One hour in milliseconds: the unit of the expiry parameter. */
  const HourMillis: int := 1000 * 60 * 60

  /** Status codes of `validateToken`. */
  const Ok: int := 200
  const Unauthorized: int := 401
  const Locked: int := 423

  /** Clock readings far enough from both ends of the `long` range that
      adding any `int` number of hours, positive or negative, cannot wrap. */
  predicate SafeClock(clock: int64)
  {
    MinLong - MinInt * HourMillis <= clock <= MaxLong - MaxInt * HourMillis
  }

  /** The selector test shared by signing and verifying: only a non-null
      GLOBAL_KEY selects the global secret. */
  predicate SelectsGlobal(sel: Option<SignatureType>)
  {
    sel == Some(GlobalKey)
  }

  /** The secret `generateToken` signs with and `extractAllClaims` verifies
      with: the same rule on both paths. */
  function SecretFor(cfg: Config, sel: Option<SignatureType>): (secret: string)
    ensures secret == cfg.globalKey || secret == cfg.accessKey
    ensures sel == Some(GlobalKey) ==> secret == cfg.globalKey
    ensures sel == Some(AccessKey) || sel == None ==> secret == cfg.accessKey
  {
    if SelectsGlobal(sel) then cfg.globalKey else cfg.accessKey
  }

  /** The library's verdict on `token` under the selected secret. */
  function Verify(cfg: Config, parse: Parser, token: Option<string>, sel: Option<SignatureType>): (r: ParseResult)
  {
    parse(token, SecretFor(cfg, sel))
  }

  // ---------------------------------------------------------------------
  // Issue

  /** `1000L * 60 * 60 * exp`: a `long` product that never wraps. */
  function HourSpan(exp: int32): (span: int64)
    ensures span == exp * HourMillis
    ensures span == 0 <==> exp == 0
    ensures span > 0 <==> exp > 0
  {
    ToLong(HourMillis * exp)
  }

  /** `clock + 1000L * 60 * 60 * exp` in `long` arithmetic. */
  function ExpirationAt(clock: int64, exp: int32): (expiration: int64)
    ensures SafeClock(clock) ==> expiration == clock + exp * HourMillis
    ensures SafeClock(clock) ==> (expiration >= clock <==> exp >= 0)
    ensures (expiration - (clock + exp * HourMillis)) % LongModulus == 0
  {
    ToLong(clock + HourSpan(exp))
  }

  /** What `generateToken` hands to the builder. The source reads the clock
      twice: once for issued-at, once for the expiration. */
  function IssuedPayload(extraClaims: map<string, Value>, exp: int32, issueClock: int64, expiryClock: int64): (p: Payload)
    ensures p.claims == extraClaims
    ensures p.issuedAt == issueClock
    ensures SafeClock(expiryClock) ==> p.expiration - expiryClock == exp * HourMillis
    ensures (p.expiration - (expiryClock + exp * HourMillis)) % LongModulus == 0
  {
    Payload(extraClaims, issueClock, ExpirationAt(expiryClock, exp))
  }

  /** `generateToken`: signs the payload with the secret the selector picks. */
  function GenerateToken(cfg: Config, sign: Signer, extraClaims: map<string, Value>, exp: int32,
                         sel: Option<SignatureType>, issueClock: int64, expiryClock: int64): (token: string)
    ensures SelectsGlobal(sel) ==> token == sign(IssuedPayload(extraClaims, exp, issueClock, expiryClock), cfg.globalKey)
    ensures !SelectsGlobal(sel) ==> token == sign(IssuedPayload(extraClaims, exp, issueClock, expiryClock), cfg.accessKey)
  {
    sign(IssuedPayload(extraClaims, exp, issueClock, expiryClock), SecretFor(cfg, sel))
  }

  // ---------------------------------------------------------------------
  // Extraction

  /** `extractAllClaims`: the claims verified under the selected secret;
      every library failure propagates unchanged. */
  function ExtractAllClaims(cfg: Config, parse: Parser, token: Option<string>, sel: Option<SignatureType>): (r: Outcome<Claims>)
    ensures r.Returns? <==> Verify(cfg, parse, token, sel).Parsed?
    ensures r.Returns? ==> r.value == Verify(cfg, parse, token, sel).claims
    ensures r.Throws? ==> r.failure == Verify(cfg, parse, token, sel).failure
  {
    match parse(token, SecretFor(cfg, sel))
    case Parsed(claims) => Returns(claims)
    case Rejected(failure) => Throws(failure)
  }

  /** The private `extractClaim`: applies a resolver to the verified claims. */
  function ExtractClaim<T>(cfg: Config, parse: Parser, token: Option<string>,
                           resolve: Claims -> T, sel: Option<SignatureType>): (r: Outcome<T>)
    ensures r.Returns? <==> Verify(cfg, parse, token, sel).Parsed?
    ensures r.Returns? ==> r.value == resolve(Verify(cfg, parse, token, sel).claims)
    ensures r.Throws? ==> r.failure == Verify(cfg, parse, token, sel).failure
  {
    var all := ExtractAllClaims(cfg, parse, token, sel);
    if all.Throws? then Throws(all.failure) else Returns(resolve(all.value))
  }

  /** The private `extractExpiration`: the verified expiration, possibly null. */
  function ExtractExpiration(cfg: Config, parse: Parser, token: Option<string>, sel: Option<SignatureType>): (r: Outcome<Option<int>>)
    ensures r.Returns? <==> Verify(cfg, parse, token, sel).Parsed?
    ensures r.Returns? ==> r.value == Verify(cfg, parse, token, sel).claims.expiration
    ensures r.Throws? ==> r.failure == Verify(cfg, parse, token, sel).failure
  {
    ExtractClaim(cfg, parse, token, (c: Claims) => c.expiration, sel)
  }

  /** `Map.get`: the value under `key`, or null; a null key is never
      present in decoded claims. */
  function Get(entries: map<string, Value>, key: Option<string>): (v: Option<Value>)
    ensures v.Some? <==> key.Some? && key.value in entries
    ensures v.Some? ==> v.value == entries[key.value]
  {
    if key.Some? && key.value in entries then Some(entries[key.value]) else None
  }

  /** `extractExtraClaims`: the source parses the token twice and discards
      the first result; the first parse can still throw. */
  function ExtractExtraClaims(cfg: Config, parse: Parser, token: Option<string>, key: Option<string>,
                              sel: Option<SignatureType>): (r: Outcome<Option<Value>>)
    ensures Verify(cfg, parse, token, sel).Rejected? ==> r == Throws(Verify(cfg, parse, token, sel).failure)
    ensures Verify(cfg, parse, token, sel).Parsed? && key.Some? && key.value in Verify(cfg, parse, token, sel).claims.entries ==>
              r == Returns(Some(Verify(cfg, parse, token, sel).claims.entries[key.value]))
    ensures Verify(cfg, parse, token, sel).Parsed? && key.Some? && key.value !in Verify(cfg, parse, token, sel).claims.entries ==>
              r == Returns(None)
    ensures Verify(cfg, parse, token, sel).Parsed? && key.None? ==> r == Returns(None)
  {
    var discarded := ExtractAllClaims(cfg, parse, token, sel);
    if discarded.Throws? then Throws(discarded.failure)
    else
      match ExtractAllClaims(cfg, parse, token, sel)
      case Throws(failure) => Throws(failure)
      case Returns(claims) => Returns(Get(claims.entries, key))
  }

  // ---------------------------------------------------------------------
  // Predicates

  /** `isTokenExpired`: the verified expiration is strictly before `now`.
      Library failures propagate; a missing expiration throws on `before`. */
  function IsTokenExpired(cfg: Config, parse: Parser, token: Option<string>, sel: Option<SignatureType>, now: int64): (r: Outcome<bool>)
    ensures r.Returns? <==> Verify(cfg, parse, token, sel).Parsed? && Verify(cfg, parse, token, sel).claims.expiration.Some?
    ensures r.Returns? ==> (r.value <==> Verify(cfg, parse, token, sel).claims.expiration.value < now)
    ensures Verify(cfg, parse, token, sel).Rejected? ==> r == Throws(Verify(cfg, parse, token, sel).failure)
    ensures Verify(cfg, parse, token, sel).Parsed? && Verify(cfg, parse, token, sel).claims.expiration.None? ==>
              r == Throws(NullPointer)
  {
    var expiration := ExtractExpiration(cfg, parse, token, sel);
    if expiration.Throws? then Throws(expiration.failure)
    else if expiration.value.None? then Throws(NullPointer)
    else Returns(expiration.value.value < now)
  }

  /** `isTokenValid`: the negation of `isTokenExpired`, failures included. */
  function IsTokenValid(cfg: Config, parse: Parser, token: Option<string>, sel: Option<SignatureType>, now: int64): (r: Outcome<bool>)
    ensures r.Returns? <==> IsTokenExpired(cfg, parse, token, sel, now).Returns?
    ensures r.Returns? ==> r.value == !IsTokenExpired(cfg, parse, token, sel, now).value
    ensures r.Throws? ==> r == IsTokenExpired(cfg, parse, token, sel, now)
    ensures r == Returns(true) <==>
              && Verify(cfg, parse, token, sel).Parsed?
              && Verify(cfg, parse, token, sel).claims.expiration.Some?
              && Verify(cfg, parse, token, sel).claims.expiration.value >= now
  {
    var expired := IsTokenExpired(cfg, parse, token, sel, now);
    if expired.Throws? then Throws(expired.failure) else Returns(!expired.value)
  }

  // ---------------------------------------------------------------------
  // Boundary operations

  /** `excludeToken`: drops one leading, case-sensitive "Bearer ". */
  function ExcludeToken(token: Option<string>): (r: Option<string>)
    ensures r.None? <==> token.None?
    ensures token.Some? && StartsWith(token.value, BearerPrefix) ==> BearerPrefix + r.value == token.value
    ensures token.Some? && !StartsWith(token.value, BearerPrefix) ==> r == token
  {
    if token.Some? && StartsWith(token.value, BearerPrefix) then Some(token.value[7..]) else token
  }

  /** The catch clauses of `validateToken`: a completed check is 200 whatever
      its verdict, the two expected failures become 401 and 423, any other
      failure propagates. */
  function StatusOf(check: Outcome<bool>): (r: Outcome<int>)
    ensures r == Returns(Ok) <==> check.Returns?
    ensures r == Returns(Unauthorized) <==> check == Throws(SignatureInvalid)
    ensures r == Returns(Locked) <==> check == Throws(ExpiredJwt)
    ensures r.Throws? <==> check.Throws? && check.failure != SignatureInvalid && check.failure != ExpiredJwt
    ensures r.Throws? ==> r.failure == check.failure
  {
    match check
    case Returns(_) => Returns(Ok)
    case Throws(SignatureInvalid) => Returns(Unauthorized)
    case Throws(ExpiredJwt) => Returns(Locked)
    case Throws(other) => Throws(other)
  }

  /** `validateToken`: runs `isTokenValid` on the token with any "Bearer "
      prefix removed and maps the outcome to a status code. */
  function ValidateToken(cfg: Config, parse: Parser, token: Option<string>, sel: Option<SignatureType>, now: int64): (r: Outcome<int>)
    ensures r.Returns? ==> r.value in {Ok, Unauthorized, Locked}
    ensures r == Returns(Ok) <==>
              && Verify(cfg, parse, ExcludeToken(token), sel).Parsed?
              && Verify(cfg, parse, ExcludeToken(token), sel).claims.expiration.Some?
    ensures r == Returns(Unauthorized) <==> Verify(cfg, parse, ExcludeToken(token), sel) == Rejected(SignatureInvalid)
    ensures r == Returns(Locked) <==> Verify(cfg, parse, ExcludeToken(token), sel) == Rejected(ExpiredJwt)
    ensures r.Throws? ==> r.failure !in {SignatureInvalid, ExpiredJwt}
    ensures Verify(cfg, parse, ExcludeToken(token), sel).Rejected?
            && Verify(cfg, parse, ExcludeToken(token), sel).failure !in {SignatureInvalid, ExpiredJwt} ==>
              r == Throws(Verify(cfg, parse, ExcludeToken(token), sel).failure)
    ensures Verify(cfg, parse, ExcludeToken(token), sel).Parsed?
            && Verify(cfg, parse, ExcludeToken(token), sel).claims.expiration.None? ==>
              r == Throws(NullPointer)
  {
    StatusOf(IsTokenValid(cfg, parse, ExcludeToken(token), sel, now))
  }

  /** `isMicroservice`: false for a null or empty token; otherwise the raw
      token (no prefix stripping) is checked against the global secret. */
  function IsMicroservice(cfg: Config, parse: Parser, token: Option<string>, now: int64): (r: Outcome<bool>)
    ensures token.None? || token == Some("") ==> r == Returns(false)
    ensures token.Some? && token != Some("") ==> r == IsTokenValid(cfg, parse, token, Some(GlobalKey), now)
  {
    if token.None? || |token.value| == 0 then Returns(false)
    else IsTokenValid(cfg, parse, token, Some(GlobalKey), now)
  }
}

=== FILE: jwt_utils_properties.dfy ===
/**
 Properties of the token utility that relate several calls: the prefix
 normalisation and its inverse, the shared key-selection rule, the expiry
 arithmetic, the status mapping, the service gate, and what follows for
 freshly issued tokens once the library keeps its guarantees.
 */
module JwtUtilsProperties {
  import opened JavaLang
  import opened JwtLibrary
  import opened JwtUtils

  // ---------------------------------------------------------------------
  // "Bearer " normalisation

  /** Prefixing "Bearer " and normalising gives the token back, whatever it
      starts with: exactly one prefix is removed. */
  lemma ExcludeTokenInvertsPrefix(t: string)
    ensures ExcludeToken(Some(BearerPrefix + t)) == Some(t)
  {
  }

  /** The edge cases: null passes through, the match is case-sensitive and
      needs the space, and a doubled prefix loses only its first copy. */
  lemma ExcludeTokenEdgeCases()
    ensures ExcludeToken(None) == None
    ensures ExcludeToken(Some("bearer x")) == Some("bearer x")
    ensures ExcludeToken(Some("Bearer")) == Some("Bearer")
    ensures ExcludeToken(Some("Bearer Bearer x")) == Some("Bearer x")
  {
    assert !StartsWith("bearer x", BearerPrefix) by { assert "bearer x"[0] != BearerPrefix[0]; }
    assert !StartsWith("Bearer", BearerPrefix);
    ExcludeTokenInvertsPrefix("Bearer x");
  }

  /** A compact token never starts with "Bearer ", so normalising leaves it
      alone. */
  lemma CompactTokenIsNotPrefixed(token: string)
    requires CompactShape(token)
    ensures ExcludeToken(Some(token)) == Some(token)
  {
    if |token| >= |BearerPrefix| {
      assert token[6] != BearerPrefix[6];
    }
  }

  // ---------------------------------------------------------------------
  // Key selection

  /** With two different secrets, two selectors pick the same secret exactly
      when both or neither are GLOBAL_KEY; a null selector behaves like
      ACCESS_KEY. */
  lemma SecretChoiceIff(cfg: Config, s1: Option<SignatureType>, s2: Option<SignatureType>)
    requires cfg.globalKey != cfg.accessKey
    ensures SecretFor(cfg, s1) == SecretFor(cfg, s2) <==> SelectsGlobal(s1) == SelectsGlobal(s2)
    ensures SecretFor(cfg, None) == SecretFor(cfg, Some(AccessKey)) == cfg.accessKey
    ensures SecretFor(cfg, Some(GlobalKey)) == cfg.globalKey
  {
  }

  // ---------------------------------------------------------------------
  // Expiry arithmetic

  /** With one clock reading for both instants, the expiration is not before
      the issue time exactly when the number of hours is not negative. */
  lemma SingleReadingOrder(claims: map<string, Value>, exp: int32, clock: int64)
    requires SafeClock(clock)
    ensures (IssuedPayload(claims, exp, clock, clock).expiration >= IssuedPayload(claims, exp, clock, clock).issuedAt)
              <==> exp >= 0
    ensures exp == 0 ==> IssuedPayload(claims, exp, clock, clock).expiration == clock
  {
  }

  /** With the two readings the source takes, a later second reading only
      moves the expiration further out. */
  lemma TwoReadingsOrder(claims: map<string, Value>, exp: int32, issueClock: int64, expiryClock: int64)
    requires SafeClock(expiryClock) && issueClock <= expiryClock
    ensures IssuedPayload(claims, exp, issueClock, expiryClock).expiration
              >= IssuedPayload(claims, exp, issueClock, expiryClock).issuedAt + exp * HourMillis
  {
  }

  /** The product never wraps, but the sum can: a clock at the top of the
      `long` range plus one hour yields an expiration before the issue time. */
  lemma ExpirationWrapsAtTopOfRange()
    ensures ExpirationAt(MaxLong, 1) < MaxLong
    ensures ExpirationAt(MaxLong, 1) == MinLong + HourMillis - 1
  {
  }

  // ---------------------------------------------------------------------
  // Status mapping and the discarded verdict

  /** `validateToken` discards the boolean: for any token a library exists
      that lets the check complete with "not valid", and the status is
      still 200. */
  lemma ValidateDiscardsVerdict(cfg: Config, token: string, sel: Option<SignatureType>, now: int64)
    ensures exists parse: Parser ::
              && IsTokenValid(cfg, parse, ExcludeToken(Some(token)), sel, now) == Returns(false)
              && ValidateToken(cfg, parse, Some(token), sel, now) == Returns(Ok)
  {
    var parse: Parser := (t: Option<string>, k: string) => Parsed(Claims(map[], Some(now - 1)));
    assert IsTokenValid(cfg, parse, ExcludeToken(Some(token)), sel, now) == Returns(false);
  }

  /** A token the library verifies but which carries no expiration makes
      `isTokenValid` throw, and `validateToken` lets that through. */
  lemma MissingExpirationEscapes(cfg: Config, parse: Parser, token: string, sel: Option<SignatureType>, now: int64)
    requires Verify(cfg, parse, Some(token), sel).Parsed?
    requires Verify(cfg, parse, Some(token), sel).claims.expiration.None?
    requires !StartsWith(token, BearerPrefix)
    ensures IsTokenValid(cfg, parse, Some(token), sel, now) == Throws(NullPointer)
    ensures ValidateToken(cfg, parse, Some(token), sel, now) == Throws(NullPointer)
  {
  }

  /** Behind one "Bearer " the status is the one for the bare token. */
  lemma ValidateIgnoresOnePrefix(cfg: Config, parse: Parser, t: string, sel: Option<SignatureType>, now: int64)
    ensures ValidateToken(cfg, parse, Some(BearerPrefix + t), sel, now)
              == StatusOf(IsTokenValid(cfg, parse, Some(t), sel, now))
    ensures !StartsWith(t, BearerPrefix) ==>
              ValidateToken(cfg, parse, Some(BearerPrefix + t), sel, now) == ValidateToken(cfg, parse, Some(t), sel, now)
  {
  }

  /** A null token, or a bare "Bearer " that strips to the empty string, is
      never turned into a status: the library's refusal propagates out of
      `validateToken`. */
  lemma ValidateNullTokenThrows(cfg: Config, parse: Parser, sign: Signer, sel: Option<SignatureType>, now: int64)
    requires SoundLibrary(parse, sign)
    ensures ValidateToken(cfg, parse, None, sel, now) == Throws(IllegalArgument)
    ensures ValidateToken(cfg, parse, Some(BearerPrefix), sel, now) == Throws(IllegalArgument)
  {
  }

  // ---------------------------------------------------------------------
  // Extra claims

  /** The discarded first parse does not change the result: it equals one
      extraction followed by a lookup. */
  lemma ExtraClaimsSingleParse(cfg: Config, parse: Parser, token: Option<string>, key: Option<string>, sel: Option<SignatureType>)
    ensures ExtractExtraClaims(cfg, parse, token, key, sel) ==
              match ExtractAllClaims(cfg, parse, token, sel)
              case Throws(failure) => Throws(failure)
              case Returns(claims) => Returns(Get(claims.entries, key))
  {
  }

  // ---------------------------------------------------------------------
  // Service gate

  /** Null and empty tokens are refused whatever the library and the
      secrets are. */
  lemma MicroserviceRefusesEmpty(c1: Config, c2: Config, p1: Parser, p2: Parser, token: Option<string>, now: int64)
    requires token.None? || token == Some("")
    ensures IsMicroservice(c1, p1, token, now) == IsMicroservice(c2, p2, token, now) == Returns(false)
  {
  }

  /** The gate reads only the global secret and does not strip a prefix. */
  lemma MicroserviceUsesGlobalRawToken(c1: Config, c2: Config, parse: Parser, t: string, now: int64)
    requires c1.globalKey == c2.globalKey
    ensures IsMicroservice(c1, parse, Some(t), now) == IsMicroservice(c2, parse, Some(t), now)
    ensures IsMicroservice(c1, parse, Some(BearerPrefix + t), now)
              == IsTokenValid(c1, parse, Some(BearerPrefix + t), Some(GlobalKey), now)
  {
  }

  // ---------------------------------------------------------------------
  // Issued tokens under the library's guarantees

  /** A freshly issued token is refused with a signature failure exactly when
      it is verified with the other secret. */
  lemma IssuedTokenVerifiesIffSameSecret(cfg: Config, parse: Parser, sign: Signer, claims: map<string, Value>, exp: int32,
                                         signSel: Option<SignatureType>, verifySel: Option<SignatureType>,
                                         issueClock: int64, expiryClock: int64)
    requires SoundLibrary(parse, sign)
    requires cfg.globalKey != cfg.accessKey
    ensures ExtractAllClaims(cfg, parse, Some(GenerateToken(cfg, sign, claims, exp, signSel, issueClock, expiryClock)), verifySel)
              == Throws(SignatureInvalid)
            <==> SelectsGlobal(signSel) != SelectsGlobal(verifySel)
  {
  }

  /** Every caller claim other than "iat" and "exp" is read back unchanged
      with the signing selector, unless the token has already expired or a
      caller "nbf" claim makes the library refuse it. */
  lemma IssuedClaimsRoundTrip(cfg: Config, parse: Parser, sign: Signer, claims: map<string, Value>, exp: int32,
                              sel: Option<SignatureType>, issueClock: int64, expiryClock: int64, key: string)
    requires SoundLibrary(parse, sign)
    requires key in claims && !Registered(key)
    ensures var r := ExtractExtraClaims(cfg, parse, Some(GenerateToken(cfg, sign, claims, exp, sel, issueClock, expiryClock)), Some(key), sel);
            || r == Returns(Some(claims[key]))
            || r == Throws(ExpiredJwt)
            || ("nbf" in claims && (r == Throws(PrematureJwt) || r == Throws(MalformedJwt)))
  {
  }

  /** `validateToken` on a freshly issued token gives 200 or 423 with the
      signing selector and 401 with the other one. A caller "nbf" claim can
      instead make the library's refusal escape `validateToken`. */
  lemma ValidateIssuedToken(cfg: Config, parse: Parser, sign: Signer, claims: map<string, Value>, exp: int32,
                            signSel: Option<SignatureType>, verifySel: Option<SignatureType>,
                            issueClock: int64, expiryClock: int64, now: int64)
    requires SoundLibrary(parse, sign)
    requires cfg.globalKey != cfg.accessKey
    ensures var r := ValidateToken(cfg, parse, Some(GenerateToken(cfg, sign, claims, exp, signSel, issueClock, expiryClock)), verifySel, now);
            && (SelectsGlobal(signSel) == SelectsGlobal(verifySel) ==>
                  || r == Returns(Ok)
                  || r == Returns(Locked)
                  || ("nbf" in claims && (r == Throws(PrematureJwt) || r == Throws(MalformedJwt))))
            && ("nbf" !in claims && SelectsGlobal(signSel) == SelectsGlobal(verifySel) ==>
                  r == Returns(Ok) || r == Returns(Locked))
            && (SelectsGlobal(signSel) != SelectsGlobal(verifySel) ==> r == Returns(Unauthorized))
  {
    var p := IssuedPayload(claims, exp, issueClock, expiryClock);
    var token := GenerateToken(cfg, sign, claims, exp, signSel, issueClock, expiryClock);
    CompactTokenIsNotPrefixed(token);
    IssuedTokenVerifiesIffSameSecret(cfg, parse, sign, claims, exp, signSel, verifySel, issueClock, expiryClock);
    if SelectsGlobal(signSel) == SelectsGlobal(verifySel) {
      SecretChoiceIff(cfg, signSel, verifySel);
      assert RoundTrips(parse(Some(sign(p, SecretFor(cfg, signSel))), SecretFor(cfg, signSel)), p);
    }
  }

  /** A token issued with the access secret does not pass the service gate
      as false: the gate throws a signature failure. */
  lemma MicroserviceRejectsAccessToken(cfg: Config, parse: Parser, sign: Signer, claims: map<string, Value>, exp: int32,
                                       issueClock: int64, expiryClock: int64, now: int64)
    requires SoundLibrary(parse, sign)
    requires cfg.globalKey != cfg.accessKey
    ensures IsMicroservice(cfg, parse, Some(GenerateToken(cfg, sign, claims, exp, Some(AccessKey), issueClock, expiryClock)), now)
              == Throws(SignatureInvalid)
  {
  }
}
